=== FILE: README.md ===
# Homework-status bot, modelled in Dafny

The bot polls the Practicum homework-status API and relays changes to a
Telegram chat. This project models its decision logic as pure functions.
The HTTP and Telegram calls become inputs and outputs. The modelled parts
are:

- the verdict table `HOMEWORK_STATUSES`;
- the configuration gate `check_tokens` and the start of `main`;
- the request rule of `get_api_answer`: `from_date` is the watermark, or the
  current time when the watermark is falsy, and any status other than 200 is
  a failure;
- `check_response` and `parse_status`, with their checks in the source's order;
- one cycle of the `while True` loop in `main` as a step function. It takes
  the watermark, the current time and the network's reply. It returns the
  request sent, the new watermark and the messages handed to Telegram.
  `Run` (a function) and `Poll` (a loop) run a finite sequence of cycles.

Files:

- `py_value.dfy`: Python's dynamic values (`Value`), truthiness, type
  names, `str`/`repr` of scalars and `dict.get`.
- `failures.dfy`: the exceptions a cycle can end with, as a closed `Error`
  datatype. `ErrorText` gives their `str()`: a KeyError renders the repr of
  its argument, quotes included. `Result` is the type of anything that may
  raise.
- `homework.dfy`: the table, the gate, the request rule, validation and
  translation.
- `bot.dfy`: one cycle (`Step`), finite runs (`Run`, `Poll`) and the
  properties that relate cycles.
- `scenarios.dfy`: complete cycles on concrete answers.

What the code does, as proved here:

- `check_response` reads `response['homeworks']` before it checks the type.
  So a non-dict response fails with the interpreter's subscript TypeError.
  Neither the explicit TypeError (homework.py:64-66) nor the `response is None`
  branch (homework.py:70-71) can ever be raised.
- `parse_status` does the table lookup before its membership test. So an
  unknown or missing status fails at the lookup. For a hashable status this
  is a KeyError whose text is the repr of the status (`'unknown'`, or `None`
  when the status is missing). For a list or dict status it is the
  unhashable-type TypeError. The explicit KeyError (homework.py:80-82) is
  never raised.
- There is no deduplication of errors. Every failing cycle sends one
  `Сбой в работе программы: <error>` message and leaves the watermark where
  it was.
- A successful cycle sets the watermark to the answer's `current_date`. When
  that field is absent, the watermark becomes `None`. The next request then
  asks from that cycle's current time.

## Model

| member | source | states |
|---|---|---|
| Failures.ErrorText | homework.py:112-113 | the text after the failure prefix: a transport or decoding exception keeps its own text, a KeyError of a key renders the repr of that key (a string key in quotes, a missing status as `None`) |
| Failures.NotListRendersRepr | homework.py:69 | the not-a-list KeyError renders as its message in single quotes, which is the repr of the message |
| Failures.EmptyRendersRepr | homework.py:71 | the empty-response KeyError would render as the repr of its message; the text is unreachable, since `check_response` never raises that error (`Homework.CheckResponse`) |
| Failures.UnknownStatusRendersRepr | homework.py:82 | the unknown-status KeyError would render as the repr of its message; the text is unreachable, since `parse_status` never raises that error (`Homework.ParseStatus`) |
| Failures.MissingConfigRendersRepr | homework.py:97 | the configuration KeyError renders as the repr of its message |
| Homework.CheckTokens | homework.py:86-91 | the gate passes iff both tokens are set and non-empty and the chat id is set at all |
| Homework.EmptyChatIdPasses | homework.py:88 | an empty chat id passes the gate, an empty or missing token does not |
| Homework.Start | homework.py:94-99 | start-up fails with the configuration KeyError exactly when the gate fails; otherwise the first watermark is the current time |
| Homework.ApiRequest | homework.py:47-48 | `from_date` is the watermark when it is truthy (non-zero int, non-empty string, ...) and the current time for None, 0, '' and empty containers |
| Homework.GetApiAnswer | homework.py:49-58 | the decoded body comes back unmodified exactly when the status is 200 and the body decodes; a non-200 status is a ConnectionError even if the body would not decode; a 200 body that does not decode re-raises the decoder's own exception with its text; a transport exception passes through |
| Homework.CheckResponse | homework.py:61-72 | succeeds iff the response is a dict whose `homeworks` is a list, returning that list unchanged; a non-dict fails at the subscript; a missing key is KeyError('homeworks'); a non-list `homeworks` is the not-a-list KeyError; the TypeError and `None` branches never fire |
| Homework.Lookup | homework.py:79 | the table lookup succeeds exactly for the three codes, each yielding its own verdict from the table; other hashable keys are a KeyError of that key, containers an unhashable-type TypeError |
| Homework.ParseStatus | homework.py:75-83 | succeeds iff the record is a dict whose status is one of the three codes; a non-dict has no `get`; the membership-check error is never raised |
| Homework.KnownStatusMessage | homework.py:29-33 | for each of the three codes the message is `Изменился статус проверки работы "<name>". ` followed by that code's verdict text |
| Homework.UnknownStatusFailsAtLookup | homework.py:78-82 | any other status, missing included, fails with exactly the lookup's error; a missing status renders as `None` |
| Bot.Attempt | homework.py:102-109 | the try-block of a cycle completes iff the reply is a decoded 200 answer holding a `homeworks` list whose first record, if any, has a known status; then it sends nothing for an empty list and the first record's status message otherwise, and the next watermark is `current_date` or None; a transport, status or decoding failure, a malformed answer, and a first record that `parse_status` rejects each end it with exactly the error of the function that raised it |
| Bot.Step | homework.py:101-115 | a cycle sends at most one message and requests from the watermark-or-now date; on success the watermark becomes `current_date` or None, and it sends nothing iff the list is empty; on failure the watermark is unchanged and exactly one failure notice is sent |
| Bot.NoticeTellsOutcome | homework.py:106-113 | when a cycle sends a message, it starts with the status-change prefix iff the cycle succeeded, and with the failure prefix iff it failed |
| Bot.StepNotifiesFirstRecord | homework.py:104-107 | a successful cycle with records sends exactly the status message of the first record; later records play no part |
| Bot.StepReportsError | homework.py:112-114 | a failing cycle sends exactly `Сбой в работе программы: ` followed by the text of the raised error |
| Bot.MissingDateRestartsFromNow | homework.py:109 | after a successful answer without `current_date`, the next request, whatever that cycle's reply, asks from the next cycle's current time |
| Bot.FailureRepeatsRequest | homework.py:112-115 | after a failing cycle with a truthy watermark, the next request asks from the same date |
| Bot.FirstRequestFromStart | homework.py:99-102 | when start-up succeeds with a non-zero start time, the first request asks from that time (a start time of 0 is falsy and would be replaced by the current time) |
| Bot.Run | homework.py:100-115 | a run of n cycles issues n requests and sends at most n messages |
| Bot.RunOfFailures | homework.py:100-115 | across consecutive failing cycles the watermark never moves and each cycle sends its own failure notice, in order |
| Bot.RunOfFailuresRequests | homework.py:100-115 | across consecutive failing cycles every request asks from the same watermark (or that cycle's current time when it is falsy) |
| Bot.RepeatedFailureNotifiesTwice | homework.py:112-114 | two identical failing cycles send two identical notices: no deduplication |
| Bot.Poll | homework.py:100-115 | the loop over a finite sequence of cycles produces exactly the run `Run` describes |
| Scenarios.ApprovedAnnounced | homework.py:104-109 | an approved `hw1` with `current_date` 1000 sends the approved message and sets the watermark to 1000 |
| Scenarios.EmptyListSilent | homework.py:105-109 | an empty list with `current_date` 2000 sends nothing and sets the watermark to 2000 |
| Scenarios.ServerErrorReportedEachTime | homework.py:51-53 | two HTTP 500 replies send `Сбой в работе программы: Ответ не получен` twice and keep the watermark |
| Scenarios.UnknownStatusReported | homework.py:79 | a first record whose status is outside the table sends `Сбой в работе программы: ` followed by the repr of the status, which is the status in single quotes when it holds no quote or backslash, and keeps the watermark |
| Scenarios.ListResponseFailsAtSubscript | homework.py:63 | a list response is reported with the subscript TypeError's text, not the explicit type-check message |
| Scenarios.HomeworksNotListReported | homework.py:67-69 | a non-list `homeworks` is reported as a KeyError, its message in quotes |

## Left out

- Network calls: `requests.get`, `.json()` and `telegram.Bot`. The reply is an input (`Reply`: an exception text, or a status code with a body that did or did not decode). The messages handed to Telegram are an output.
- `send_message` swallowing `TelegramError` (homework.py:36-42): delivery is best-effort and never raises, so a sent message means a delivery attempt. Delivery success is not modelled.
- `time.time()` and `time.sleep(RETRY_TIME)`: the current time is a parameter, and sleeping has no observable effect.
- The infinite `while True`: `Run` and `Poll` cover any finite prefix of it.
- Logging, `load_dotenv`, `os.getenv`, `ENDPOINT` and the `Authorization` header. The three settings are inputs (`Setting`).
- Exception classes are an error kind, not a Python class. `KeyboardInterrupt` and other non-`Exception` errors, which the loop does not catch, are not modelled.
- Texts of the interpreter's own errors (subscript, attribute, unhashable) follow CPython 3.11 wording. Other versions word them differently.
- PyValue.StrRepr: picks its quotes as CPython does and escapes backslashes and the chosen quote (the single quote when a string holds both kinds), but does not escape control or unprintable characters. `str`/`repr` of lists, dicts and floats are fixed stand-in texts.
- Floats are one opaque `Other` value. It is truthy, cannot be subscripted and has no `get`, so `0.0` as a watermark is not distinguished from other floats.

=== FILE: bot.dfy ===
/**
 The body of the bot's `while True` loop as a pure state-machine step.
 The state is the watermark timestamp; the inputs of one cycle are the
 current time and what the network answered; the outputs are the request
 that was sent, the new watermark and the messages handed to Telegram.
 Delivery is best-effort and never raises, so a message "sent" here is a
 message the bot attempted to deliver. Sleeping has no observable effect.
 */
module Bot {
  import opened PyValue
  import opened Failures
  import opened Homework

  const FailurePrefix := "Сбой в работе программы: "

  /** The notification sent when a cycle raised `e`. */
  function FailureText(e: Error): string {
    FailurePrefix + ErrorText(e)
  }

  /** A record whose status is one of the three known codes. */
  predicate KnownRecord(h: Value) {
    h.Dict? && "status" in h.fields && h.fields["status"].Str? && h.fields["status"].s in Statuses
  }

  /** The answer decoded from a successful HTTP exchange. */
  predicate Decoded(reply: Reply) {
    reply.Answered? && reply.status == 200 && reply.body.Json?
  }

  /** A dict holding a `homeworks` list. */
  predicate WellShaped(v: Value) {
    v.Dict? && "homeworks" in v.fields && v.fields["homeworks"].List?
  }

  /** The replies a cycle gets through without raising, stated without
      reference to the functions that process them. */
  predicate Healthy(reply: Reply) {
    && Decoded(reply)
    && WellShaped(reply.body.decoded)
    && var records := reply.body.decoded.fields["homeworks"].items;
       records == [] || KnownRecord(records[0])
  }

  /** What the try-block of a cycle yields when nothing raised: the messages
      it sent and the next watermark. */
  datatype Progress = Progress(sent: seq<string>, next: Value)

  /** The try-block of one cycle: fetch, validate, translate the first
      record if there is one, and read `current_date` from the answer. */
  function Attempt(reply: Reply): (r: Result<Progress>)
    ensures r.Ok? <==> Healthy(reply)
    ensures r.Ok? ==>
      var answer := reply.body.decoded.fields;
      var records := answer["homeworks"].items;
      && r.value.next == (if "current_date" in answer then answer["current_date"] else Null)
      && (records == [] ==> r.value.sent == [])
      && (records != [] ==> r.value.sent == [ParseStatus(records[0]).value])
    ensures !Decoded(reply) ==> r == Err(GetApiAnswer(reply).error)
    ensures Decoded(reply) && !WellShaped(reply.body.decoded) ==>
      r == Err(CheckResponse(reply.body.decoded).error)
    ensures Decoded(reply) && WellShaped(reply.body.decoded) && !Healthy(reply) ==>
      var records := reply.body.decoded.fields["homeworks"].items;
      records != [] && r == Err(ParseStatus(records[0]).error)
  {
    var response :- GetApiAnswer(reply);
    var homeworks :- CheckResponse(response);
    var next := Get(response.fields, "current_date");
    if |homeworks| == 0 then Ok(Progress([], next))
    else
      var message :- ParseStatus(homeworks[0]);
      Ok(Progress([message], next))
  }

  datatype Tick = Tick(now: int, reply: Reply)
  datatype Cycle = Cycle(request: Request, watermark: Value, sent: seq<string>)

  /** One cycle of the main loop. */
  function Step(watermark: Value, tick: Tick): (c: Cycle)
    ensures c.request == ApiRequest(watermark, tick.now)
    ensures |c.sent| <= 1
    ensures Healthy(tick.reply) ==>
      var answer := tick.reply.body.decoded.fields;
      && c.watermark == (if "current_date" in answer then answer["current_date"] else Null)
      && (c.sent == [] <==> answer["homeworks"].items == [])
      && (forall k :: 0 <= k < |c.sent| ==> StatusPrefix <= c.sent[k])
    ensures !Healthy(tick.reply) ==>
      c.watermark == watermark && |c.sent| == 1 && FailurePrefix <= c.sent[0]
  {
    var request := ApiRequest(watermark, tick.now);
    match Attempt(tick.reply)
    case Ok(p) => Cycle(request, p.next, p.sent)
    case Err(e) => Cycle(request, watermark, [FailureText(e)])
  }

  /** The text of a cycle's notice tells a successful cycle from a failing
      one: status notices and failure notices start differently. */
  lemma NoticeTellsOutcome(watermark: Value, tick: Tick)
    requires Step(watermark, tick).sent != []
    ensures StatusPrefix <= Step(watermark, tick).sent[0] <==> Healthy(tick.reply)
    ensures FailurePrefix <= Step(watermark, tick).sent[0] <==> !Healthy(tick.reply)
  {
    var m := Step(watermark, tick).sent[0];
    assert StatusPrefix[0] == 'И' && FailurePrefix[0] == 'С';
    if Healthy(tick.reply) {
      assert m[0] == 'И';
    } else {
      assert m[0] == 'С';
    }
  }

  /** A healthy cycle with a non-empty list notifies about the first record
      only, with the verdict of its status; later records play no part. */
  lemma StepNotifiesFirstRecord(watermark: Value, tick: Tick)
    requires Healthy(tick.reply)
    requires tick.reply.body.decoded.fields["homeworks"].items != []
    ensures
      var first := tick.reply.body.decoded.fields["homeworks"].items[0];
      Step(watermark, tick).sent ==
        ["Изменился статус проверки работы \"" + Display(Get(first.fields, "homework_name")) + "\". "
         + Statuses[first.fields["status"].s]]
  {
  }

  /** A failing cycle sends exactly the text of the error it raised. */
  lemma StepReportsError(watermark: Value, tick: Tick)
    requires Attempt(tick.reply).Err?
    ensures Step(watermark, tick).sent ==
      ["Сбой в работе программы: " + ErrorText(Attempt(tick.reply).error)]
  {
  }

  /** A healthy answer without `current_date` sets the watermark to None, so
      the next request falls back to that cycle's current time. */
  lemma MissingDateRestartsFromNow(watermark: Value, tick: Tick, next: Tick)
    requires Healthy(tick.reply)
    requires "current_date" !in tick.reply.body.decoded.fields
    ensures Step(Step(watermark, tick).watermark, next).request == Request(Int(next.now))
  {
  }

  /** After a failing cycle the next request asks from the same date. */
  lemma FailureRepeatsRequest(watermark: Value, tick: Tick, next: Tick)
    requires !Healthy(tick.reply)
    requires Truthy(watermark)
    ensures Step(Step(watermark, tick).watermark, next).request == Step(watermark, tick).request
  {
  }

  /** The first request after start-up asks from the start time. */
  lemma FirstRequestFromStart(practicum: Setting, telegram: Setting, chatId: Setting, start: int, tick: Tick)
    requires Start(practicum, telegram, chatId, start).Ok?
    requires start != 0
    ensures Step(Start(practicum, telegram, chatId, start).value, tick).request == Request(Int(start))
  {
  }

  // ---------------------------------------------------------------------
  // A finite run of the loop

  datatype Trace = Trace(requests: seq<Request>, watermark: Value, sent: seq<string>)

  /** The loop run over the given ticks, one cycle per tick. */
  function Run(watermark: Value, ticks: seq<Tick>): (t: Trace)
    ensures |t.requests| == |ticks|
    ensures |t.sent| <= |ticks|
    decreases |ticks|
  {
    if ticks == [] then Trace([], watermark, [])
    else
      var c := Step(watermark, ticks[0]);
      var rest := Run(c.watermark, ticks[1..]);
      Trace([c.request] + rest.requests, rest.watermark, c.sent + rest.sent)
  }

  /** A failing cycle in one piece: the request, the unchanged watermark and
      the one notice. */
  lemma FailingStep(watermark: Value, tick: Tick)
    requires Attempt(tick.reply).Err?
    ensures Step(watermark, tick) ==
      Cycle(ApiRequest(watermark, tick.now), watermark, [FailureText(Attempt(tick.reply).error)])
  {
  }

  /** A run that starts with a failing cycle: its request and its notice
      come first, and the rest of the run starts from the same watermark. */
  lemma FailingFront(watermark: Value, ticks: seq<Tick>)
    requires ticks != [] && Attempt(ticks[0].reply).Err?
    ensures
      var rest := Run(watermark, ticks[1..]);
      Run(watermark, ticks) ==
        Trace([ApiRequest(watermark, ticks[0].now)] + rest.requests, rest.watermark,
              [FailureText(Attempt(ticks[0].reply).error)] + rest.sent)
  {
    FailingStep(watermark, ticks[0]);
  }

  /** Failures are not deduplicated: every failing cycle sends its own
      notice and none moves the watermark. */
  lemma {:induction false} RunOfFailures(watermark: Value, ticks: seq<Tick>)
    requires forall k :: 0 <= k < |ticks| ==> Attempt(ticks[k].reply).Err?
    ensures Run(watermark, ticks).watermark == watermark
    ensures |Run(watermark, ticks).sent| == |ticks|
    ensures forall k :: 0 <= k < |ticks| ==>
      Run(watermark, ticks).sent[k] == FailureText(Attempt(ticks[k].reply).error)
    decreases |ticks|
  {
    if ticks != [] {
      FailingFront(watermark, ticks);
      RunOfFailures(watermark, ticks[1..]);
      forall k | 1 <= k < |ticks|
        ensures Run(watermark, ticks).sent[k] == FailureText(Attempt(ticks[k].reply).error)
      {
        assert ticks[1..][k - 1] == ticks[k];
      }
    }
  }

  /** Consecutive failing cycles all ask from the same watermark. */
  lemma {:induction false} RunOfFailuresRequests(watermark: Value, ticks: seq<Tick>)
    requires forall k :: 0 <= k < |ticks| ==> Attempt(ticks[k].reply).Err?
    ensures forall k :: 0 <= k < |ticks| ==>
      Run(watermark, ticks).requests[k] == ApiRequest(watermark, ticks[k].now)
    decreases |ticks|
  {
    if ticks != [] {
      FailingFront(watermark, ticks);
      RunOfFailuresRequests(watermark, ticks[1..]);
      forall k | 1 <= k < |ticks|
        ensures Run(watermark, ticks).requests[k] == ApiRequest(watermark, ticks[k].now)
      {
        assert ticks[1..][k - 1] == ticks[k];
      }
    }
  }

  /** Two identical failing cycles in a row send two identical notices. */
  lemma RepeatedFailureNotifiesTwice(watermark: Value, tick: Tick)
    requires Attempt(tick.reply).Err?
    ensures Run(watermark, [tick, tick]).sent ==
      [FailureText(Attempt(tick.reply).error), FailureText(Attempt(tick.reply).error)]
  {
    RunOfFailures(watermark, [tick, tick]);
  }

  /** Taking one more cycle off the front of the remaining ticks keeps a run
      split into what has been done and what is left. */
  lemma RunResumes(whole: Trace, requests: seq<Request>, sent: seq<string>, w: Value, rest: seq<Tick>)
    requires rest != []
    requires whole.requests == requests + Run(w, rest).requests
    requires whole.sent == sent + Run(w, rest).sent
    requires whole.watermark == Run(w, rest).watermark
    ensures
      var c := Step(w, rest[0]);
      && whole.requests == (requests + [c.request]) + Run(c.watermark, rest[1..]).requests
      && whole.sent == (sent + c.sent) + Run(c.watermark, rest[1..]).sent
      && whole.watermark == Run(c.watermark, rest[1..]).watermark
  {
    var c := Step(w, rest[0]);
    var tail := Run(c.watermark, rest[1..]);
    assert requests + ([c.request] + tail.requests) == (requests + [c.request]) + tail.requests;
    assert sent + (c.sent + tail.sent) == (sent + c.sent) + tail.sent;
  }

  /** The loop of `main`, run over a finite sequence of ticks. */
  method Poll(watermark: Value, ticks: seq<Tick>) returns (t: Trace)
    ensures t == Run(watermark, ticks)
  {
    var w := watermark;
    var requests: seq<Request> := [];
    var sent: seq<string> := [];
    var i := 0;
    assert ticks[i..] == ticks;
    while i < |ticks|
      invariant 0 <= i <= |ticks|
      invariant Run(watermark, ticks).requests == requests + Run(w, ticks[i..]).requests
      invariant Run(watermark, ticks).sent == sent + Run(w, ticks[i..]).sent
      invariant Run(watermark, ticks).watermark == Run(w, ticks[i..]).watermark
      decreases |ticks| - i
    {
      RunResumes(Run(watermark, ticks), requests, sent, w, ticks[i..]);
      assert ticks[i..][0] == ticks[i] && ticks[i..][1..] == ticks[i + 1..];
      var c := Step(w, ticks[i]);
      requests := requests + [c.request];
      sent := sent + c.sent;
      w := c.watermark;
      i := i + 1;
    }
    assert ticks[i..] == [];
    t := Trace(requests, w, sent);
  }
}

=== FILE: failures.dfy ===
/**
 The exceptions the bot can raise or catch, as a closed enumeration, their
 text as `str(error)` renders it, and a Result type for the functions that
 raise them.
 */
module Failures {
  import opened PyValue

  /** Every exception a cycle of the bot can end with, plus the fatal
      start-up one. Texts of the interpreter's own errors follow CPython 3.11. */
  datatype Error =
    | Transport(text: string)       // `requests.get` raised; its text is given
    | BadStatus                     // ConnectionError: the answer was not HTTP 200
    | Undecodable(text: string)     // `.json()` raised; its text is given
    | MissingKey(key: Value)        // KeyError from `d[key]` on an absent key
    | NotSubscriptable(target: Value)  // TypeError from `target['homeworks']`
    | WrongResponseType             // TypeError: the response is not a dict
    | HomeworksNotList              // KeyError: `homeworks` is not a list
    | EmptyResponse                 // KeyError: the response is None
    | NoGetMethod(target: Value)    // AttributeError from `target.get(...)`
    | Unhashable(key: Value)        // TypeError from a lookup with a container key
    | UnknownStatus                 // KeyError: status not in the verdict table
    | MissingConfig                 // KeyError: a required setting is absent

  /** Messages the source passes to the KeyErrors it raises itself. */
  const NotListMessage := "Некорректный тип данных у my_homeworks"
  const EmptyMessage := "Пустой словарь"
  const UnknownStatusMessage := "Некорректный статус домашней работы"
  const MissingConfigMessage := "Отсутствуют необходимые данные"

  /** A message free of quotes and backslashes is only wrapped by repr. */
  lemma PlainRepr(m: string)
    requires forall k :: 0 <= k < |m| ==> m[k] != '\'' && m[k] != '\\'
    ensures StrRepr(m) == "'" + m + "'"
  {
    assert '\'' !in m && '\\' !in m;
  }

  /** `str(e)`. A KeyError renders the repr of its argument, quotes included. */
  function ErrorText(e: Error): (r: string)
    ensures e.Transport? || e.Undecodable? ==> r == e.text
    ensures e.MissingKey? ==> r == Repr(e.key)
    ensures e.MissingKey? && e.key.Str? ==> r == StrRepr(e.key.s)
    ensures e.MissingKey? && e.key.Null? ==> r == "None"
  {
    match e
    case Transport(t) => t
    case BadStatus => "Ответ не получен"
    case Undecodable(t) => t
    case MissingKey(k) => Repr(k)
    case NotSubscriptable(v) =>
      if v.Str? then "string indices must be integers, not 'str'"
      else if v.List? then "list indices must be integers or slices, not str"
      else "'" + TypeName(v) + "' object is not subscriptable"
    case WrongResponseType => "Некорректный тип данных response"
    case HomeworksNotList => "'" + NotListMessage + "'"
    case EmptyResponse => "'" + EmptyMessage + "'"
    case NoGetMethod(v) => "'" + TypeName(v) + "' object has no attribute 'get'"
    case Unhashable(k) => "unhashable type: '" + TypeName(k) + "'"
    case UnknownStatus => "'" + UnknownStatusMessage + "'"
    case MissingConfig => "'" + MissingConfigMessage + "'"
  }

  /** The KeyErrors the source raises with a message of its own render as
      the repr of that message. */
  lemma NotListRendersRepr()
    ensures ErrorText(HomeworksNotList) == StrRepr(NotListMessage)
  {
    assert ErrorText(HomeworksNotList) == "'" + NotListMessage + "'";
    NotListMessagePlain();
    PlainRepr(NotListMessage);
  }

  lemma NotListMessagePlain()
    ensures forall k :: 0 <= k < |NotListMessage| ==> NotListMessage[k] != '\'' && NotListMessage[k] != '\\'
  {
  }

  lemma EmptyRendersRepr()
    ensures ErrorText(EmptyResponse) == StrRepr(EmptyMessage)
  {
    assert ErrorText(EmptyResponse) == "'" + EmptyMessage + "'";
    EmptyMessagePlain();
    PlainRepr(EmptyMessage);
  }

  lemma EmptyMessagePlain()
    ensures forall k :: 0 <= k < |EmptyMessage| ==> EmptyMessage[k] != '\'' && EmptyMessage[k] != '\\'
  {
  }

  lemma UnknownStatusRendersRepr()
    ensures ErrorText(UnknownStatus) == StrRepr(UnknownStatusMessage)
  {
    assert ErrorText(UnknownStatus) == "'" + UnknownStatusMessage + "'";
    UnknownStatusMessagePlain();
    PlainRepr(UnknownStatusMessage);
  }

  lemma UnknownStatusMessagePlain()
    ensures forall k :: 0 <= k < |UnknownStatusMessage| ==> UnknownStatusMessage[k] != '\'' && UnknownStatusMessage[k] != '\\'
  {
  }

  lemma MissingConfigRendersRepr()
    ensures ErrorText(MissingConfig) == StrRepr(MissingConfigMessage)
  {
    assert ErrorText(MissingConfig) == "'" + MissingConfigMessage + "'";
    MissingConfigMessagePlain();
    PlainRepr(MissingConfigMessage);
  }

  lemma MissingConfigMessagePlain()
    ensures forall k :: 0 <= k < |MissingConfigMessage| ==> MissingConfigMessage[k] != '\'' && MissingConfigMessage[k] != '\\'
  {
  }

  /** The outcome of a Python call that may raise. */
  datatype Result<+T> = Ok(value: T) | Err(error: Error) {

    predicate IsFailure() {
      Err?
    }

    function PropagateFailure<U>(): Result<U>
      requires Err?
    {
      Err(error)
    }

    function Extract(): T
      requires Ok?
    {
      value
    }
  }
}

=== FILE: homework.dfy ===
/**
 The pure parts of the bot script: the verdict table, the configuration
 gate, the request parameter and status rule of the API call, validation
 of the decoded answer, and translation of a homework record into the
 notification text.
 */
module Homework {
  import opened PyValue
  import opened Failures

  const ApprovedVerdict := "Работа проверена: ревьюеру всё понравилось. Ура!"
  const ReviewingVerdict := "Работа взята на проверку ревьюером."
  const RejectedVerdict := "Работа проверена: у ревьюера есть замечания."

  /** Status code -> localized verdict; fixed for the process lifetime. */
  const Statuses: map<string, string> := map[
    "approved" := ApprovedVerdict,
    "reviewing" := ReviewingVerdict,
    "rejected" := RejectedVerdict
  ]

  const StatusPrefix := "Изменился статус проверки работы \""

  /** The notification for a homework named `name` with verdict `verdict`. */
  function StatusText(name: Value, verdict: string): string {
    StatusPrefix + Display(name) + "\". " + verdict
  }

  // ---------------------------------------------------------------------
  // Configuration gate

  /** An environment variable as `os.getenv` returns it: absent or a string. */
  datatype Setting = Unset | Set(text: string)

  /** Python truthiness of a setting: `None` and `''` are false. */
  predicate SettingTruthy(v: Setting) {
    v.Set? && v.text != ""
  }

  /** `check_tokens`: both tokens must be truthy, while the chat id is only compared
      against `None`, so an empty chat id passes. */
  function CheckTokens(practicum: Setting, telegram: Setting, chatId: Setting): (ok: bool)
    ensures ok <==>
      && practicum.Set? && |practicum.text| > 0
      && telegram.Set? && |telegram.text| > 0
      && chatId != Unset
  {
    SettingTruthy(practicum) && SettingTruthy(telegram) && chatId.Set?
  }

  /** Start-up of `main`: refuse to run without configuration, otherwise the
      first watermark is the current time. */
  function Start(practicum: Setting, telegram: Setting, chatId: Setting, now: int): (r: Result<Value>)
    ensures r.Ok? <==> CheckTokens(practicum, telegram, chatId)
    ensures r.Ok? ==> r.value == Int(now)
    ensures r.Err? ==> r.error == MissingConfig
  {
    if !CheckTokens(practicum, telegram, chatId) then Err(MissingConfig)
    else Ok(Int(now))
  }

  // ---------------------------------------------------------------------
  // The API call

  /** The query the bot sends: `from_date` is the watermark, or the current
      time when the watermark is falsy. */
  datatype Request = Request(fromDate: Value)

  /** What came back from the network: `requests.get` raised, or an HTTP
      answer whose body did or did not decode as JSON. */
  datatype Body = Json(decoded: Value) | NotJson(text: string)
  datatype Reply = Raised(text: string) | Answered(status: int, body: Body)

  function ApiRequest(timestamp: Value, now: int): (q: Request)
    ensures timestamp.Int? && timestamp.i != 0 ==> q.fromDate == timestamp
    ensures timestamp.Str? && timestamp.s != "" ==> q.fromDate == timestamp
    ensures timestamp in {Null, Int(0), Bool(false), Str(""), List([]), Dict(map[])} ==>
      q.fromDate == Int(now)
    ensures q.fromDate == timestamp || q.fromDate == Int(now)
    ensures q.fromDate == timestamp <==> Truthy(timestamp) || timestamp == Int(now)
  {
    Request(if Truthy(timestamp) then timestamp else Int(now))
  }

  /** `get_api_answer` after the request: any status but 200 is a
      ConnectionError, checked before the body is decoded. */
  function GetApiAnswer(reply: Reply): (r: Result<Value>)
    ensures r.Ok? <==> reply.Answered? && reply.status == 200 && reply.body.Json?
    ensures r.Ok? ==> r.value == reply.body.decoded
    ensures reply.Answered? && reply.status != 200 ==> r == Err(BadStatus)
    ensures reply.Raised? ==> r == Err(Transport(reply.text))
    ensures reply.Answered? && reply.status == 200 && reply.body.NotJson? ==>
      r == Err(Undecodable(reply.body.text))
  {
    match reply
    case Raised(t) => Err(Transport(t))
    case Answered(code, body) =>
      if code != 200 then Err(BadStatus)
      else match body
        case Json(v) => Ok(v)
        case NotJson(t) => Err(Undecodable(t))
  }

  // ---------------------------------------------------------------------
  // Validation

  /** `v[key]` for a string key. */
  function Subscript(v: Value, key: string): Result<Value> {
    match v
    case Dict(f) => if key in f then Ok(f[key]) else Err(MissingKey(Str(key)))
    case _ => Err(NotSubscriptable(v))
  }

  /** `check_response`, in the source's order: the `homeworks` field is read
      before the type of the response is checked. */
  function CheckResponse(response: Value): (r: Result<seq<Value>>)
    ensures r.Ok? <==>
      response.Dict? && "homeworks" in response.fields && response.fields["homeworks"].List?
    ensures r.Ok? ==> r.value == response.fields["homeworks"].items
    ensures !response.Dict? ==> r == Err(NotSubscriptable(response))
    ensures response.Dict? && "homeworks" !in response.fields ==> r == Err(MissingKey(Str("homeworks")))
    ensures response.Dict? && "homeworks" in response.fields && !response.fields["homeworks"].List? ==>
      r == Err(HomeworksNotList)
    ensures r.Err? ==> r.error !in {WrongResponseType, EmptyResponse}
  {
    var homeworks :- Subscript(response, "homeworks");
    if !response.Dict? then Err(WrongResponseType)
    else if !homeworks.List? then Err(HomeworksNotList)
    else if response.Null? then Err(EmptyResponse)
    else Ok(homeworks.items)
  }

  // ---------------------------------------------------------------------
  // Translation

  /** `HOMEWORK_STATUSES[status]`. */
  function Lookup(status: Value): (r: Result<string>)
    ensures r.Ok? <==> status.Str? && status.s in {"approved", "reviewing", "rejected"}
    ensures r.Ok? ==> r.value in {ApprovedVerdict, ReviewingVerdict, RejectedVerdict}
    ensures status == Str("approved") ==> r == Ok(ApprovedVerdict)
    ensures status == Str("reviewing") ==> r == Ok(ReviewingVerdict)
    ensures status == Str("rejected") ==> r == Ok(RejectedVerdict)
    ensures r.Err? ==> r.error == (if Hashable(status) then MissingKey(status) else Unhashable(status))
  {
    if !Hashable(status) then Err(Unhashable(status))
    else if status.Str? && status.s in Statuses then Ok(Statuses[status.s])
    else Err(MissingKey(status))
  }

  /** `parse_status`: the table lookup comes before the membership test, so
      an unknown status fails at the lookup. */
  function ParseStatus(homework: Value): (r: Result<string>)
    ensures r.Ok? <==>
      && homework.Dict?
      && "status" in homework.fields
      && homework.fields["status"] in {Str("approved"), Str("reviewing"), Str("rejected")}
    ensures !homework.Dict? ==> r == Err(NoGetMethod(homework))
    ensures r.Err? ==> r.error != UnknownStatus
  {
    match homework
    case Dict(f) =>
      var name := Get(f, "homework_name");
      var status := Get(f, "status");
      var verdict :- Lookup(status);
      if !(status.Str? && status.s in Statuses) then Err(UnknownStatus)
      else Ok(StatusText(name, verdict))
    case _ => Err(NoGetMethod(homework))
  }

  // ---------------------------------------------------------------------
  // Properties of the translation and the gate

  /** A record with a known status yields the fixed template around its name
      (`None` when the record has none) and that status's verdict. */
  lemma KnownStatusMessage(fields: map<string, Value>)
    requires "status" in fields && fields["status"].Str? && fields["status"].s in Statuses
    ensures var code := fields["status"].s;
      var text := "Изменился статус проверки работы \"" + Display(Get(fields, "homework_name")) + "\". ";
      && (code == "approved" ==> ParseStatus(Dict(fields)) == Ok(text + "Работа проверена: ревьюеру всё понравилось. Ура!"))
      && (code == "reviewing" ==> ParseStatus(Dict(fields)) == Ok(text + "Работа взята на проверку ревьюером."))
      && (code == "rejected" ==> ParseStatus(Dict(fields)) == Ok(text + "Работа проверена: у ревьюера есть замечания."))
  {
  }

  /** Any other status fails at the table lookup, never at the later
      membership test; a missing status is looked up as `None`. */
  lemma UnknownStatusFailsAtLookup(fields: map<string, Value>)
    requires Get(fields, "status") !in {Str("approved"), Str("reviewing"), Str("rejected")}
    ensures ParseStatus(Dict(fields)) == Lookup(Get(fields, "status"))
    ensures ParseStatus(Dict(fields)).Err?
    ensures "status" !in fields ==> ParseStatus(Dict(fields)) == Err(MissingKey(Null))
    ensures "status" !in fields ==> ErrorText(ParseStatus(Dict(fields)).error) == "None"
  {
  }

  /** An empty chat id passes the gate; an empty token does not. */
  lemma EmptyChatIdPasses(practicum: string, telegram: string)
    ensures CheckTokens(Set(practicum), Set(telegram), Set("")) <==> practicum != "" && telegram != ""
    ensures !CheckTokens(Set(""), Set(telegram), Set("42"))
    ensures !CheckTokens(Set(practicum), Set(telegram), Unset)
  {
  }
}

=== FILE: py_value.dfy ===
/**
 The dynamic values the bot handles: the body decoded from the API's JSON
 answer and everything read out of it. Only the Python behaviour the bot
 relies on is modelled: truthiness, the type name the interpreter reports,
 `str()`/`repr()` of the scalar values, and `dict.get`.
 */
module PyValue {

  /** A decoded JSON value as Python holds it. `Other` stands for any other
      object (in practice a JSON number with a fraction, a Python float). */
  datatype Value =
    | Null
    | Bool(b: bool)
    | Int(i: int)
    | Str(s: string)
    | List(items: seq<Value>)
    | Dict(fields: map<string, Value>)
    | Other

  /** Python truthiness (`bool(v)`); `Other` is treated as a non-zero float. */
  predicate Truthy(v: Value) {
    match v
    case Null => false
    case Bool(b) => b
    case Int(i) => i != 0
    case Str(s) => s != ""
    case List(xs) => xs != []
    case Dict(f) => f != map[]
    case Other => true
  }

  /** `type(v).__name__` */
  function TypeName(v: Value): string {
    match v
    case Null => "NoneType"
    case Bool(_) => "bool"
    case Int(_) => "int"
    case Str(_) => "str"
    case List(_) => "list"
    case Dict(_) => "dict"
    case Other => "float"
  }

  /** `dict.get(key)`: the value stored under `key`, or `None`. */
  function Get(fields: map<string, Value>, key: string): Value {
    if key in fields then fields[key] else Null
  }

  /** Decimal digits of a natural number, most significant first. */
  function NatText(n: nat): (r: string)
    ensures |r| > 0
    ensures forall k :: 0 <= k < |r| ==> '0' <= r[k] <= '9'
    decreases n
  {
    var digit := "0123456789"[n % 10];
    if n < 10 then [digit] else NatText(n / 10) + [digit]
  }

  /** `str(i)` for an integer. */
  function IntText(i: int): string {
    if i < 0 then "-" + NatText(-i) else NatText(i)
  }

  /** The quote `repr` puts around `s`: a double quote only when the text
      holds a single quote and no double quote. */
  function QuoteFor(s: string): char {
    if '\'' in s && '"' !in s then '"' else '\''
  }

  /** The body of `repr(s)` between the quotes: a backslash before every
      backslash and every occurrence of the quote `q`. */
  function Escape(s: string, q: char): string
    decreases |s|
  {
    if s == [] then []
    else (if s[0] == '\\' || s[0] == q then ['\\', s[0]] else [s[0]]) + Escape(s[1..], q)
  }

  /** Reading an escaped body back: a backslash stands for the character
      after it. */
  function Unescape(t: string): string
    decreases |t|
  {
    if t == [] then []
    else if t[0] == '\\' && |t| >= 2 then [t[1]] + Unescape(t[2..])
    else [t[0]] + Unescape(t[1..])
  }

  lemma {:induction false} UnescapeEscape(s: string, q: char)
    ensures Unescape(Escape(s, q)) == s
    decreases |s|
  {
    if s != [] {
      var head := if s[0] == '\\' || s[0] == q then ['\\', s[0]] else [s[0]];
      var rest := Escape(s[1..], q);
      UnescapeEscape(s[1..], q);
      if |head| == 2 {
        assert (head + rest)[2..] == rest;
      } else {
        assert (head + rest)[1..] == rest;
      }
    }
  }

  /** A well-formed escaped body for the quote `q`: every backslash is
      followed by the character it escapes, and `q` never appears bare. */
  predicate Escaped(t: string, q: char)
    decreases |t|
  {
    if t == [] then true
    else if t[0] == '\\' then |t| >= 2 && Escaped(t[2..], q)
    else t[0] != q && Escaped(t[1..], q)
  }

  lemma {:induction false} EscapeEscaped(s: string, q: char)
    ensures Escaped(Escape(s, q), q)
    decreases |s|
  {
    if s != [] {
      var head := if s[0] == '\\' || s[0] == q then ['\\', s[0]] else [s[0]];
      var rest := Escape(s[1..], q);
      EscapeEscaped(s[1..], q);
      if |head| == 2 {
        assert (head + rest)[2..] == rest;
      } else {
        assert (head + rest)[1..] == rest;
      }
    }
  }

  lemma {:induction false} EscapePlain(s: string, q: char)
    ensures '\\' !in s && q !in s ==> Escape(s, q) == s
    decreases |s|
  {
    if s != [] {
      assert forall c :: c in s[1..] ==> c in s;
      EscapePlain(s[1..], q);
    }
  }

  /** `repr(s)` for a string. Control and other unprintable characters are
      not escaped. */
  function StrRepr(s: string): (r: string)
    ensures |r| >= |s| + 2
    ensures r[0] == r[|r| - 1] == QuoteFor(s)
    ensures Unescape(r[1..|r| - 1]) == s
    ensures Escaped(r[1..|r| - 1], QuoteFor(s))
    ensures '\\' !in s && '\'' !in s ==> r == ['\''] + s + ['\'']
    ensures '\\' !in s && '\'' in s && '"' !in s ==> r == ['"'] + s + ['"']
  {
    var q := QuoteFor(s);
    var body := Escape(s, q);
    UnescapeEscape(s, q);
    EscapeEscaped(s, q);
    EscapePlain(s, q);
    EscapeLength(s, q);
    assert ([q] + body + [q])[1..|body| + 1] == body;
    [q] + body + [q]
  }

  lemma {:induction false} EscapeLength(s: string, q: char)
    ensures |Escape(s, q)| >= |s|
    decreases |s|
  {
    if s != [] {
      EscapeLength(s[1..], q);
    }
  }

  /** `repr(v)`; containers and floats are given a fixed stand-in text. */
  function Repr(v: Value): string {
    match v
    case Null => "None"
    case Bool(b) => if b then "True" else "False"
    case Int(i) => IntText(i)
    case Str(s) => StrRepr(s)
    case List(_) => "<list>"
    case Dict(_) => "<dict>"
    case Other => "<float>"
  }

  /** `str(v)`, as an f-string embeds it: a string is embedded as is. */
  function Display(v: Value): string {
    if v.Str? then v.s else Repr(v)
  }

  /** A key Python can hash: containers cannot be dictionary keys. */
  predicate Hashable(v: Value) {
    !v.List? && !v.Dict?
  }
}

=== FILE: scenarios.dfy ===
/**
 Whole cycles on concrete answers: what the bot sends and where the
 watermark goes.
 */
module Scenarios {
  import opened PyValue
  import opened Failures
  import opened Homework
  import opened Bot

  function Record(name: string, status: string): Value {
    Dict(map["homework_name" := Str(name), "status" := Str(status)])
  }

  function Ok200(body: Value): Reply {
    Answered(200, Json(body))
  }

  /** An approved homework is announced with its name and the watermark
      moves to the server's `current_date`. */
  lemma ApprovedAnnounced(watermark: Value, now: int)
    ensures
      var answer := Dict(map["homeworks" := List([Record("hw1", "approved")]), "current_date" := Int(1000)]);
      Step(watermark, Tick(now, Ok200(answer))) ==
        Cycle(ApiRequest(watermark, now), Int(1000),
              ["Изменился статус проверки работы \"" + "hw1" + "\". " + "Работа проверена: ревьюеру всё понравилось. Ура!"])
  {
    var answer := Dict(map["homeworks" := List([Record("hw1", "approved")]), "current_date" := Int(1000)]);
    var tick := Tick(now, Ok200(answer));
    assert answer.fields["homeworks"].items[0] == Record("hw1", "approved");
    StepNotifiesFirstRecord(watermark, tick);
  }

  /** An empty list sends nothing and still moves the watermark. */
  lemma EmptyListSilent(watermark: Value, now: int)
    ensures
      var answer := Dict(map["homeworks" := List([]), "current_date" := Int(2000)]);
      Step(watermark, Tick(now, Ok200(answer))) == Cycle(ApiRequest(watermark, now), Int(2000), [])
  {
  }

  /** A server error is reported on every cycle it happens in, with the
      watermark kept: there is no deduplication. */
  lemma ServerErrorReportedEachTime(watermark: Value, now1: int, now2: int, body: Body)
    ensures
      var t := Run(watermark, [Tick(now1, Answered(500, body)), Tick(now2, Answered(500, body))]);
      && t.sent == ["Сбой в работе программы: Ответ не получен", "Сбой в работе программы: Ответ не получен"]
      && t.watermark == watermark
  {
    var ticks := [Tick(now1, Answered(500, body)), Tick(now2, Answered(500, body))];
    assert Attempt(Answered(500, body)) == Err(BadStatus);
    RunOfFailures(watermark, ticks);
    assert FailureText(BadStatus) == "Сбой в работе программы: Ответ не получен";
  }

  /** A status outside the table is reported with the repr of the status,
      as the KeyError from the table lookup renders it: a plain status in
      single quotes. */
  lemma UnknownStatusReported(watermark: Value, now: int, name: string, status: string)
    requires status !in Statuses
    ensures
      var answer := Dict(map["homeworks" := List([Record(name, status)])]);
      var c := Step(watermark, Tick(now, Ok200(answer)));
      && c == Cycle(ApiRequest(watermark, now), watermark, ["Сбой в работе программы: " + StrRepr(status)])
      && ('\\' !in status && '\'' !in status ==> c.sent == ["Сбой в работе программы: " + "'" + status + "'"])
  {
    var answer := Dict(map["homeworks" := List([Record(name, status)])]);
    UnknownStatusFails(name, status);
    FailingStep(watermark, Tick(now, Ok200(answer)));
    if '\\' !in status && '\'' !in status {
      PlainKeyNotice(status);
    }
  }

  /** The try-block fails at the table lookup, with the status as the key. */
  lemma UnknownStatusFails(name: string, status: string)
    requires status !in Statuses
    ensures Attempt(Ok200(Dict(map["homeworks" := List([Record(name, status)])]))) ==
      Err(MissingKey(Str(status)))
  {
    var answer := Dict(map["homeworks" := List([Record(name, status)])]);
    var record := Record(name, status);
    assert record.fields["status"] == Str(status);
    assert answer.fields["homeworks"].items[0] == record;
  }

  /** The notice for a KeyError of a plain string key: the key in single quotes. */
  lemma PlainKeyNotice(key: string)
    requires '\\' !in key && '\'' !in key
    ensures FailureText(MissingKey(Str(key))) == "Сбой в работе программы: " + "'" + key + "'"
  {
    assert StrRepr(key) == "'" + key + "'";
    assert FailurePrefix + ("'" + key + "'") == "Сбой в работе программы: " + "'" + key + "'";
  }

  /** A response that is a list fails at reading `homeworks`, before the
      explicit type check could report it. */
  lemma ListResponseFailsAtSubscript(watermark: Value, now: int)
    ensures Step(watermark, Tick(now, Ok200(List([])))).sent ==
      ["Сбой в работе программы: " + "list indices must be integers or slices, not str"]
  {
    assert Attempt(Ok200(List([]))) == Err(NotSubscriptable(List([])));
  }

  /** A `homeworks` field that is not a list is reported as a KeyError,
      whose text is the quoted message. */
  lemma HomeworksNotListReported(watermark: Value, now: int)
    ensures Step(watermark, Tick(now, Ok200(Dict(map["homeworks" := Str("x")])))).sent ==
      ["Сбой в работе программы: " + "'" + "Некорректный тип данных у my_homeworks" + "'"]
  {
    assert Attempt(Ok200(Dict(map["homeworks" := Str("x")]))) == Err(HomeworksNotList);
    var text := "Некорректный тип данных у my_homeworks";
    assert '\'' !in text;
    assert ErrorText(HomeworksNotList) == "'" + text + "'";
    StepReportsError(watermark, Tick(now, Ok200(Dict(map["homeworks" := Str("x")]))));
    assert FailurePrefix + ("'" + text + "'") == FailurePrefix + "'" + text + "'";
  }
}
